=== FILE: README.md ===
# Disk image management tool: a Dafny model

The tool creates raw disk images and gets them ready to boot. It allocates a zero-filled
image, loads a 446-byte bootstrap into the first sector, and injects raw data at a byte
offset. It also creates and formats primary partitions through `parted`, `losetup` and
`mkfs.vfat`, and copies files into a partition through a temporary loop-device mount. The
tool never encodes a partition table itself: `parted` does that. What the tool computes on
its own is modelled here:

- **Sector arithmetic** (`sectors.dfy`, module `Sectors`). This covers the partition-index
  check, the byte window a loop device is bound to, and the sector count of a new image.
- **Byte images** (`images.dfy`, module `Images`). These are pure functions on `seq<bv8>`:
  the zero-filled image, the bootstrap load, and raw injection. `WriteAt` is Python's
  `seek` + `write` on a file, including the zero-filled gap when a non-empty write starts
  past the end of the file. An empty write changes nothing, because a seek alone never
  extends a file.
- **Partition listing parser** (`listing.dfy`, module `Listing`). The boundary lookup takes
  the leftmost match of `<index>\s+([0-9]*)s\s+([0-9]*)s` in the text `parted … unit s print`
  produces. `Spells` states a match declaratively. `ScanAt` is the greedy regular-expression
  engine at one position. `FirstRow` is the left-to-right search. They are proved to agree,
  so the lookup's result is characterised by the leftmost match alone.
- **Loop-device discipline** (`protocol.dfy`, module `Protocol`). A command is modelled as
  the trace of the external steps it starts. `Scoped` says three things:
  - the partition table is touched only while no loop device is bound;
  - the device is used only while it is bound;
  - every bind is released before the command ends.

  `Balanced` adds that there is at most one bind and exactly one release per bind.
- **Commands** (`commands.dfy`, module `Commands`). These are `format_partition` and
  `load_file` of `diskmgmt.py`. Each collaborator's outcome is an explicit parameter: a
  `FormatWorld` or a `LoadWorld` of success flags, plus the listing text. Each property is
  proved for every world, so it holds under every combination of tool failures.
- **Older tool** (`legacy.dfy`, module `Legacy`). This is `src/diskmgmt.py`. Its arithmetic
  and byte handling are shown to equal the newer tool's. Its `format_partition` keeps the
  loop-device discipline in every world except one, and the model exhibits that world.
- `outcomes.dfy` (module `Outcomes`) holds the failure kinds and the `Result`/`Option` types.

Behaviour that follows the code:

- On a file opened in binary mode, `read(-1)` reads to end of file, and `read(n)` for any
  `n` below -1 raises `ValueError`. The handler of `inject` catches only I/O errors, so
  such a truncation length ends the command before anything is written. This is modelled
  as `BadReadLength`.
- The lookup pattern is not anchored. A row for partition 11 therefore also answers a lookup
  of partition 1.
- The listing's bytes are decoded as UTF-8 outside the handler for tool failures. Output
  that does not decode (`Undecodable`) therefore ends the command with an uncaught error,
  modelled as `ListingNotText`.
- A digit group of the pattern may be empty. Then `int('')` raises, which is modelled as
  `BadSectorField`.
- `\s` is Python's whitespace class for text patterns, Unicode spaces included.
- The loop-device window is `[start*512, end*512)`. It stops where the end sector begins, so
  that sector is not visible through the device.
- The release in a `finally` clause may itself raise. Its exception then replaces the failure
  in flight, so the command ends with `DetachFailed`.
- For a file-system type other than `fat32`, `format_partition` runs an empty command string.
  That raises before any process starts; the `finally` still releases the device. This is
  modelled as `UnsupportedFilesystem`, reported after the release.
- `load_file` unmounts after a failed copy. If that unmount fails, its error is the one
  reported.

## Model

| member | source | states |
|---|---|---|
| `Sectors.CheckPartitionIndex` | diskmgmt.py:25-31 | an index is accepted exactly when it is one of the four primary slots 1..4; any other index aborts with that index |
| `Sectors.LoopRange` | diskmgmt.py:35-37 | the loop window is sector aligned, begins at the first byte of the start sector and ends at the first byte of the end sector; its length is non-negative exactly when end >= start |
| `Sectors.LoopRangeCoversSectors` | diskmgmt.py:35-37 | a byte is visible through the loop device exactly when its sector lies in [start, end), so the end sector itself is not covered |
| `Sectors.ImageSectors` | diskmgmt.py:52-55 | a non-negative size in MiB yields sectors totalling size * 2^20 bytes; a non-positive size yields no sectors |
| `Images.WriteAt` | diskmgmt.py:106-107 | an empty write leaves the file as it was; after a non-empty seek and write, the written bytes sit at the offset, every other old byte is unchanged, a gap past the old end reads as zero, and the length is the larger of the old end and the write's end |
| `Images.WriteAtIdempotent` | diskmgmt.py:86-87 | writing the same bytes at the same offset twice gives the same file as writing them once |
| `Images.WriteZeroSectors` | diskmgmt.py:55-56 | the loop writes exactly count * 512 bytes, all zero |
| `Images.CreateImage` | diskmgmt.py:49-74 | the command succeeds exactly when the write and the label step both succeed; a write failure aborts with an I/O failure and a label failure aborts with its own error; on success the image has size * 2^20 bytes, all zero |
| `Images.AddMbr` | diskmgmt.py:76-95 | fails with an I/O failure exactly when a file cannot be opened or the read, seek, write or closes raise; otherwise, with k = min(446, boot sector length), the first k bytes are the boot sector's, every byte of the image at position >= k is unchanged, and the image grows only to reach k |
| `Images.AddMbrKeepsPartitionTable` | diskmgmt.py:79-87 | for an image of at least one sector, loading a boot sector leaves the partition entries and the signature (bytes 446 onwards) unchanged |
| `Images.Payload` | diskmgmt.py:102-105 | the read succeeds exactly when the truncation length is at least -1, and otherwise fails with `BadReadLength`; the injected bytes are a prefix of the data file: the whole file for -1, otherwise min(length, file size) bytes |
| `Images.Inject` | diskmgmt.py:96-114 | succeeds exactly when both files open, the truncation length is at least -1 and the read, seek, write and closes raise nothing; an open or I/O failure gives `IoFailure` and a length below -1 gives `BadReadLength`; on success a non-empty payload sits at the starting offset with a zero gap before it, every other old byte is unchanged, and the image grows only to hold a non-empty payload |
| `Images.InjectPastEndGrowsImage` | diskmgmt.py:102-107 | no bounds check: a non-empty payload from a valid truncation length, written at or past the end of the image, makes the image longer |
| `Images.InjectEmptyPayloadKeepsImage` | diskmgmt.py:102-107 | an empty payload leaves the image unchanged, wherever the starting offset points |
| `Listing.ValueOfRender` | diskmgmt.py:176-177 | reading back the decimal text of a number with `int()` gives the number |
| `Listing.SpanIsRun` | diskmgmt.py:176 | a greedy run of whitespace or digits holds only characters of its class and cannot be extended |
| `Listing.SpanIsMaximalRun` | diskmgmt.py:176 | any run of a class that cannot be extended is exactly the greedy run, so the engine's choice at a position is forced |
| `Listing.ScanAtMatchesSpells` | diskmgmt.py:176-177 | the greedy engine succeeds at a position exactly when the pattern matches there, and it returns that match's pieces, which are unique |
| `Listing.FirstRow` | diskmgmt.py:187 | the search returns the first position at which the engine succeeds, and none if it succeeds nowhere |
| `Listing.ExtractBoundaries` | diskmgmt.py:173-195 | a failing listing tool and undecodable listing bytes each abort with their own failure; every other failure is either a missing partition or an empty sector field |
| `Listing.ExtractUsesLeftmostMatch` | diskmgmt.py:187-195 | the result is the two numbers of the leftmost match of the pattern, or an error when one of its digit groups is empty |
| `Listing.ExtractMissingIffNoMatch` | diskmgmt.py:187-191 | the lookup reports a missing partition exactly when the pattern matches nowhere in the listing |
| `Listing.UnanchoredSuffixMatches` | diskmgmt.py:176-177 | a match for the index text c+i at position p is also a match for i at p+1 |
| `Listing.Partition11AnswersPartition1` | diskmgmt.py:176-193 | a listing whose only row is for partition 11 answers a lookup of partition 1 with that row's sectors |
| `Listing.ListedRowIsFound` | diskmgmt.py:176-195 | when the listing holds the row parted prints for a partition, with any column padding, after header lines in which the pattern matches nowhere, the lookup returns exactly that partition's start and end sectors |
| `Protocol.ScopedBalances` | diskmgmt.py:153-154 | under the loop-device discipline, the releases equal the binds, plus one for a device bound before the trace began |
| `Protocol.BracketIsBalanced` | diskmgmt.py:234-235 | a trace of table steps, one bind, device steps and one release is balanced and holds exactly one bind |
| `Commands.FormatPartition` | diskmgmt.py:130-154 | partition creation comes first, and if it fails nothing else happens; a device is bound exactly when creation succeeded and a device was free; the formatter runs exactly then and only for fat32; a bound device is released as the last step; the command completes exactly when every step succeeds and the type is fat32; with no free device it reports `NoLoopDevice`; a failed release reports `DetachFailed`; otherwise a failed formatter reports `FormatFailed` and a type other than fat32 reports `UnsupportedFilesystem` |
| `Commands.FormatStepOrder` | diskmgmt.py:130-154 | the trace is creation alone when creation fails or no device is free; otherwise exactly creation, the bind over the partition, the formatter for fat32 only, and the release last |
| `Commands.FormatDetachesOnce` | diskmgmt.py:133-154 | in every world the format trace is balanced, with one bind exactly when creation and binding succeeded |
| `Commands.LoadSteps` | diskmgmt.py:213-230 | the device steps start with the mount; the copy and then the unmount follow exactly when the mount succeeded; a failed mount reports `MountFailed`; a failed copy reports `CopyFailed` unless its unmount also fails, which reports `UnmountFailed`; nothing is pending exactly when mount, copy and unmount all succeed |
| `Commands.LoadResolved` | diskmgmt.py:202-235 | a failed lookup aborts after the listing step only; with no free device the command reports `NoLoopDevice` after the listing step; once the boundaries are known, the steps complete exactly when bind, mount, copy, unmount and release all succeed |
| `Commands.LoadFile` | diskmgmt.py:197-235 | an invalid index aborts before any step; a failed lookup aborts after the listing step only; the command completes exactly when the index is valid, the lookup succeeds and every later step succeeds |
| `Commands.LoadDetachesOnce` | diskmgmt.py:205-235 | in every world, including mount, copy or unmount failure, the load trace is balanced, with one bind exactly when validation, lookup and binding succeeded |
| `Commands.LoadStepOrder` | diskmgmt.py:199-235 | when the index is valid, the lookup succeeds and a device is free, the trace is: list, bind the listed window, mount, then copy and unmount only after a successful mount, and release last |
| `Commands.LoadResolvesBeforeAttach` | diskmgmt.py:199-207 | the only bind is the second step, after the listing; it happens only for a valid index with resolved boundaries, and it binds the window of those boundaries |
| `Commands.LoadUnmountsBeforeDetachOnCopyFailure` | diskmgmt.py:226-235 | after a failed copy the trace ends copy, unmount, release; the failure reported is the release's, else the unmount's, else the copy's |
| `Commands.LoadBindsListedPartition` | diskmgmt.py:199-207 | when the listing holds the partition's row, with any column padding, after header lines in which the pattern matches nowhere, `load_file` lists, then binds exactly that partition's window, once |
| `Legacy.AttachLoopback` | src/diskmgmt.py:16-18 | the older tool's loop window is the same as the newer tool's |
| `Legacy.ImageSectors` | src/diskmgmt.py:33-36 | Python 2 floor division `size * 2^20 / 512`, counted by `range`, is the newer tool's sector count |
| `Legacy.CreateImage` | src/diskmgmt.py:32-51 | succeeds exactly when the write and the label step succeed; the image has size * 2^20 bytes for a non-negative size and none otherwise, all zero |
| `Legacy.AddMbr` | src/diskmgmt.py:53-69 | the older bootstrap load gives the same result as the newer one on every input |
| `Legacy.FormatPartition` | src/diskmgmt.py:72-94 | creation comes first and its failure stops everything; the formatter runs exactly when a device was bound and the type is fat32; the command completes exactly when every step it runs succeeds |
| `Legacy.FormatBalancedIffFormatterSucceeds` | src/diskmgmt.py:82-94 | the older trace is balanced in every world except the one where a device was bound, the type is fat32 and the formatter failed |
| `Legacy.FormatFailureLeaksMapping` | src/diskmgmt.py:84-90 | when the formatter fails, the device is bound once and never released |
| `Legacy.FormatAgreesWhenFormatterSucceeds` | src/diskmgmt.py:72-94 | when the formatter succeeds, the older fat32 format trace and status equal the newer tool's |
| `Legacy.NonFat32OnlyBindsAndReleases` | src/diskmgmt.py:85-94 | for a type other than fat32, the older tool creates, binds and releases, with no format step |

## Findings

| source | as written | input that shows it | evidently intended | confidence | as-written member | corrected member |
|---|---|---|---|---|---|---|
| src/diskmgmt.py:84-94 | a failed `mkfs.vfat` calls `os._exit(1)` before `detachLoopback`, so the loop device stays bound | type `fat32`, partition created, loop device bound, formatter fails | release the loop device on every path; diskmgmt.py:145-154 does this with `finally` | high; not executed | `Legacy.FormatFailureLeaksMapping` | `Commands.FormatDetachesOnce` |

## Left out

- Argument parsing and dispatch (`main` in both files) are left out. They are command-line plumbing.
- Process and tool calls are left out: `execute`, `output_execute`, and the `parted`, `mkfs.vfat`, `mount` and `umount` command strings. Each step is a success flag in `FormatWorld` or `LoadWorld`. The listing step is a `ToolOutput`: the tool's failure, bytes that are not UTF-8, or the decoded text.
- `losetup` is not modelled beyond bind and release events. This covers device discovery and the pool of free devices.
- `active_partition` (both files) is left out. In diskmgmt.py it is one `parted set … boot on` call behind the index check, which is modelled; src/diskmgmt.py:96-103 makes the same call with no index check.
- The label bytes that `parted mklabel` writes are not modelled. The same holds for the partition entries written by `parted mkpart`. `CreateImage` returns the zero-filled image handed to the labelling step.
- A write failure part-way through `create_image` is a single flag. The partial file it leaves is not modelled.
- Images.AddMbr and Images.Inject take the outcome of the read, seek, write and closes as one flag. The bytes a failed write may already have put into the image are not modelled; the result is only the failure.
- Python 3 computes the sector count of `create_image` in floating point. The model uses the exact integer `size * 2048`, which the float equals for every size below 2^33 MiB.
- Printing and exit codes are left out. Each abort is a `Failure` value.
- diskmgmt.py:111 calls the undefined `printf` in the `inject` error handler, so that handler would itself raise a `NameError`. The model reports the failure as `IoFailure`.
- `starting_index` is parsed as a string (diskmgmt.py:300-303), so the `seek` at diskmgmt.py:106 would raise. The model takes the offset as a natural number.
- The mount step is modelled as succeeding or raising `CalledProcessError`. An `OSError` from a missing `mount` binary would reach the copy-failure handler instead; this is not modelled.
- The `load_file` stub of src/diskmgmt.py:106-107 only prints, so it is not modelled.

=== FILE: commands.dfy ===
/** The two commands of diskmgmt.py that bind a loop device: `format_partition` and
    `load_file`. Each external step succeeds or fails as a `World` says, so quantifying
    over worlds covers every combination of collaborator outcomes. */
module Commands {
  import opened Outcomes
  import opened Sectors
  import opened Listing
  import opened Protocol

  datatype Status = Completed | Aborted(reason: Failure)

  /** The steps a command started, in order, and how it ended. */
  datatype Run = Run(trace: seq<Event>, status: Status)

  const Fat32: string := "fat32"

  /** The `finally` clause: the release always runs; if it raises, its exception replaces
      the one in flight, otherwise the pending failure (if any) ends the command. */
  function AfterRelease(pending: Option<Failure>, detachOk: bool): Status {
    if !detachOk then Aborted(DetachFailed)
    else if pending.Some? then Aborted(pending.value)
    else Completed
  }

  // ---------------------------------------------------------------- format_partition

  /** Outcomes of the collaborators of `format_partition`. */
  datatype FormatWorld = FormatWorld(mkpart: bool, attach: bool, mkfs: bool, detach: bool)

  /** Device steps of `format_partition` and the failure they leave pending. Only FAT32 has
      a formatter; for any other type the command string is empty and running it raises
      before any process starts. */
  function FormatSteps(fsType: string, mkfsOk: bool): (r: (seq<Event>, Option<Failure>))
    ensures forall i | 0 <= i < |r.0| :: UsesDevice(r.0[i])
  {
    if fsType == Fat32 then ([Format], if mkfsOk then None else Some(FormatFailed))
    else ([], Some(UnsupportedFilesystem))
  }

  /** `format_partition`: create the partition, bind a loop device over it, format it,
      release the device in a `finally`. */
  function FormatPartition(fsType: string, start: int, end: int, w: FormatWorld): (r: Run)
    ensures |r.trace| > 0 && r.trace[0] == MakePartition(fsType, start, end)
    ensures !w.mkpart ==> r == Run([MakePartition(fsType, start, end)], Aborted(PartitionFailed))
    ensures Attach(LoopRange(start, end)) in r.trace <==> w.mkpart && w.attach
    ensures Format in r.trace <==> w.mkpart && w.attach && fsType == Fat32
    ensures w.mkpart && w.attach ==> r.trace[|r.trace| - 1] == Detach
    ensures r.status == Completed <==> w.mkpart && w.attach && fsType == Fat32 && w.mkfs && w.detach
    ensures w.mkpart && !w.attach ==> r.status == Aborted(NoLoopDevice)
    ensures w.mkpart && w.attach && !w.detach ==> r.status == Aborted(DetachFailed)
    ensures w.mkpart && w.attach && w.detach && fsType == Fat32 && !w.mkfs ==> r.status == Aborted(FormatFailed)
    ensures w.mkpart && w.attach && w.detach && fsType != Fat32 ==> r.status == Aborted(UnsupportedFilesystem)
  {
    var create := MakePartition(fsType, start, end);
    if !w.mkpart then Run([create], Aborted(PartitionFailed))
    else if !w.attach then Run([create], Aborted(NoLoopDevice))
    else
      var (inner, pending) := FormatSteps(fsType, w.mkfs);
      Run([create, Attach(LoopRange(start, end))] + inner + [Detach], AfterRelease(pending, w.detach))
  }

  /** In every world, `format_partition` keeps the discipline and releases each bind
      exactly once; it binds exactly when the partition was created and a device was free. */
  lemma FormatDetachesOnce(fsType: string, start: int, end: int, w: FormatWorld)
    ensures Balanced(FormatPartition(fsType, start, end, w).trace)
    ensures Attaches(FormatPartition(fsType, start, end, w).trace) == (if w.mkpart && w.attach then 1 else 0)
  {
    var r := FormatPartition(fsType, start, end, w);
    var create := MakePartition(fsType, start, end);
    if w.mkpart && w.attach {
      var (inner, _) := FormatSteps(fsType, w.mkfs);
      assert r.trace == [create] + [Attach(LoopRange(start, end))] + inner + [Detach];
      BracketIsBalanced([create], LoopRange(start, end), inner);
    } else {
      TableStepsAreBalanced(r.trace);
    }
  }

  /** The exact steps of `format_partition`: creation alone when it fails or no device is
      free; otherwise creation, the bind over the new partition, the formatter for FAT32
      only, and the release last. */
  lemma FormatStepOrder(fsType: string, start: int, end: int, w: FormatWorld)
    ensures !(w.mkpart && w.attach) ==> FormatPartition(fsType, start, end, w).trace == [MakePartition(fsType, start, end)]
    ensures w.mkpart && w.attach ==>
      FormatPartition(fsType, start, end, w).trace ==
        [MakePartition(fsType, start, end), Attach(LoopRange(start, end))]
        + (if fsType == Fat32 then [Format] else []) + [Detach]
  {
  }

  // ---------------------------------------------------------------- load_file

  /** Outcomes of the collaborators of `load_file`; `listing` is what the partition-table
      tool printed, or its failure. */
  datatype LoadWorld = LoadWorld(listing: ToolOutput, attach: bool, mount: bool, copy: bool, umount: bool, detach: bool)

  /** The `-t` argument of mount: `vfat` for FAT32 and empty for everything else. */
  function MountType(fsType: string): string {
    if fsType == Fat32 then "vfat" else ""
  }

  /** Device steps of `load_file` and the failure they leave pending. A failed mount ends
      the `try`; a failed copy still unmounts, and a failing unmount there wins. */
  function LoadSteps(fsType: string, w: LoadWorld): (r: (seq<Event>, Option<Failure>))
    ensures forall i | 0 <= i < |r.0| :: UsesDevice(r.0[i])
    ensures |r.0| > 0 && r.0[0] == Mount(MountType(fsType))
    ensures Unmount in r.0 <==> w.mount
    ensures Copy in r.0 <==> w.mount
    ensures w.mount ==> r.0[1..] == [Copy, Unmount]
    ensures r.1.None? <==> w.mount && w.copy && w.umount
    ensures !w.mount ==> r.1 == Some(MountFailed)
    ensures w.mount && !w.copy ==> r.1 == Some(if w.umount then CopyFailed else UnmountFailed)
    ensures w.mount && w.copy && !w.umount ==> r.1 == Some(UnmountFailed)
  {
    var mount := Mount(MountType(fsType));
    if !w.mount then ([mount], Some(MountFailed))
    else if !w.copy then ([mount, Copy, Unmount], Some(if w.umount then CopyFailed else UnmountFailed))
    else if !w.umount then ([mount, Copy, Unmount], Some(UnmountFailed))
    else ([mount, Copy, Unmount], None)
  }

  /** `load_file` once the boundaries are looked up: list the table, bind a loop device
      over the boundaries, mount, copy, unmount, release the device in a `finally`. */
  function LoadResolved(lookup: Result<(nat, nat)>, fsType: string, w: LoadWorld): (r: Run)
    ensures lookup.Err? ==> r == Run([ListTable], Aborted(lookup.error))
    ensures lookup.Ok? && !w.attach ==> r == Run([ListTable], Aborted(NoLoopDevice))
    ensures r.status == Completed <==> lookup.Ok? && w.attach && w.mount && w.copy && w.umount && w.detach
  {
    match lookup
    case Err(f) => Run([ListTable], Aborted(f))
    case Ok((start, end)) =>
      if !w.attach then Run([ListTable], Aborted(NoLoopDevice))
      else
        var (inner, pending) := LoadSteps(fsType, w);
        Run([ListTable, Attach(LoopRange(start, end))] + inner + [Detach], AfterRelease(pending, w.detach))
  }

  /** `load_file`: validate the index, resolve the boundaries from the listing, then the
      steps of `LoadResolved`. */
  function LoadFile(index: int, fsType: string, w: LoadWorld): (r: Run)
    ensures index !in PrimarySlots ==> r == Run([], Aborted(InvalidPartitionIndex(index)))
    ensures index in PrimarySlots && ExtractBoundaries(index, w.listing).Err? ==>
      r == Run([ListTable], Aborted(ExtractBoundaries(index, w.listing).error))
    ensures r.status == Completed <==>
      && index in PrimarySlots && ExtractBoundaries(index, w.listing).Ok?
      && w.attach && w.mount && w.copy && w.umount && w.detach
  {
    match CheckPartitionIndex(index)
    case Err(f) => Run([], Aborted(f))
    case Ok(_) => LoadResolved(ExtractBoundaries(index, w.listing), fsType, w)
  }

  /** The resolved steps keep the discipline, with one bind exactly when the lookup and
      the bind succeeded, and that bind is the second step, over the looked-up window. */
  lemma LoadResolvedDetachesOnce(lookup: Result<(nat, nat)>, fsType: string, w: LoadWorld)
    ensures Balanced(LoadResolved(lookup, fsType, w).trace)
    ensures Attaches(LoadResolved(lookup, fsType, w).trace) == (if lookup.Ok? && w.attach then 1 else 0)
    ensures lookup.Ok? && w.attach ==>
      var t := LoadResolved(lookup, fsType, w).trace;
      |t| >= 2 && t[..2] == [ListTable, Attach(LoopRange(lookup.value.0, lookup.value.1))]
    ensures forall i | 0 <= i < |LoadResolved(lookup, fsType, w).trace| && LoadResolved(lookup, fsType, w).trace[i].Attach? ::
      i == 1 && lookup.Ok? && w.attach
  {
    var r := LoadResolved(lookup, fsType, w);
    if lookup.Ok? && w.attach {
      var (start, end) := lookup.value;
      var (inner, _) := LoadSteps(fsType, w);
      assert r.trace == [ListTable] + [Attach(LoopRange(start, end))] + inner + [Detach];
      BracketIsBalanced([ListTable], LoopRange(start, end), inner);
    } else {
      TableStepsAreBalanced(r.trace);
    }
  }

  /** Once a device is bound over the looked-up window, the steps are: mount, and only
      after a successful mount the copy and then the unmount, and last the release. */
  lemma LoadResolvedStepOrder(lookup: Result<(nat, nat)>, fsType: string, w: LoadWorld)
    ensures lookup.Ok? && w.attach ==>
      LoadResolved(lookup, fsType, w).trace ==
        [ListTable, Attach(LoopRange(lookup.value.0, lookup.value.1)), Mount(MountType(fsType))]
        + (if w.mount then [Copy, Unmount] else []) + [Detach]
  {
    if lookup.Ok? && w.attach {
      var (inner, _) := LoadSteps(fsType, w);
      assert inner == [Mount(MountType(fsType))] + inner[1..];
    }
  }

  /** True when `load_file` gets as far as binding a device. */
  predicate LoadBinds(index: int, w: LoadWorld) {
    index in PrimarySlots && ExtractBoundaries(index, w.listing).Ok? && w.attach
  }

  /** In every world, `load_file` keeps the discipline: each bind, including after a failed
      mount, copy or unmount, is released exactly once. */
  lemma LoadDetachesOnce(index: int, fsType: string, w: LoadWorld)
    ensures Balanced(LoadFile(index, fsType, w).trace)
    ensures Attaches(LoadFile(index, fsType, w).trace) == (if LoadBinds(index, w) then 1 else 0)
  {
    if index in PrimarySlots {
      LoadResolvedDetachesOnce(ExtractBoundaries(index, w.listing), fsType, w);
    } else {
      TableStepsAreBalanced([]);
    }
  }

  /** The index is validated and the boundaries resolved before the only bind, and the
      bound window is the one the listing gave. */
  lemma LoadResolvesBeforeAttach(index: int, fsType: string, w: LoadWorld)
    ensures
      var t := LoadFile(index, fsType, w).trace;
      forall i | 0 <= i < |t| && t[i].Attach? ::
        && i == 1 && t[0] == ListTable
        && index in PrimarySlots && ExtractBoundaries(index, w.listing).Ok?
        && t[i].mapping == LoopRange(ExtractBoundaries(index, w.listing).value.0, ExtractBoundaries(index, w.listing).value.1)
  {
    if index in PrimarySlots {
      LoadResolvedDetachesOnce(ExtractBoundaries(index, w.listing), fsType, w);
    }
  }

  /** End to end: for a valid index whose row the listing holds and a free device,
      `load_file` lists, binds over the listed window, mounts, copies and unmounts only
      after a successful mount, and releases last. */
  lemma LoadStepOrder(index: int, fsType: string, w: LoadWorld)
    ensures LoadBinds(index, w) ==>
      var (start, end) := ExtractBoundaries(index, w.listing).value;
      LoadFile(index, fsType, w).trace ==
        [ListTable, Attach(LoopRange(start, end)), Mount(MountType(fsType))]
        + (if w.mount then [Copy, Unmount] else []) + [Detach]
  {
    if LoadBinds(index, w) {
      LoadResolvedStepOrder(ExtractBoundaries(index, w.listing), fsType, w);
    }
  }

  /** After a failed copy the file system is unmounted before the device is released. */
  lemma LoadUnmountsBeforeDetachOnCopyFailure(index: int, fsType: string, w: LoadWorld)
    ensures LoadBinds(index, w) && w.mount && !w.copy ==>
      var t := LoadFile(index, fsType, w).trace;
      |t| >= 3 && t[|t| - 3..] == [Copy, Unmount, Detach]
    ensures LoadBinds(index, w) && w.mount && !w.copy ==>
      LoadFile(index, fsType, w).status ==
        Aborted(if !w.detach then DetachFailed else if w.umount then CopyFailed else UnmountFailed)
  {
    if LoadBinds(index, w) {
      var lookup := ExtractBoundaries(index, w.listing);
      assert LoadFile(index, fsType, w) == LoadResolved(lookup, fsType, w);
    }
  }

  /** End to end: when the listing holds the row the tool prints for the partition, after
      header lines in which the pattern matches nowhere, `load_file` binds the loop device
      over exactly that partition's sectors. */
  lemma LoadBindsListedPartition(index: int, fsType: string, gap1: string, start: nat, gap2: string, end: nat, header: string, rest: string, w: LoadWorld)
    requires index in PrimarySlots && w.attach && Padding(gap1) && Padding(gap2)
    requires w.listing == Output(header + PrintedRow(index, gap1, start, gap2, end) + rest)
    requires forall q: nat, m': Row | q < |header| ::
      !Spells(header + PrintedRow(index, gap1, start, gap2, end) + rest, q, IndexText(index), m')
    ensures
      var t := LoadFile(index, fsType, w).trace;
      |t| >= 2 && t[..2] == [ListTable, Attach(LoopRange(start, end))]
    ensures Attaches(LoadFile(index, fsType, w).trace) == 1
  {
    ListedRowIsFound(index, gap1, start, gap2, end, header, rest);
    LoadResolvedDetachesOnce(Ok((start, end)), fsType, w);
  }
}

=== FILE: images.dfy ===
/** Byte-image transformations: creating a zero-filled image, loading a bootstrap
    sector and injecting raw data. An image file is its sequence of bytes; a file that
    cannot be opened is `None`. */
module Images {
  import opened Outcomes
  import opened Sectors

  type Byte = bv8
  type Image = seq<Byte>

  /** Bytes of the first sector reserved for boot code; the partition entries follow. */
  const BootstrapSize: nat := 446

  function Zeros(n: nat): (z: Image)
    ensures |z| == n
    ensures forall i | 0 <= i < n :: z[i] == 0
  {
    seq(n, _ => 0)
  }

  /** The file after `seek(offset)` and `write(data)`: the written bytes replace the old
      ones and everything else stays. A non-empty write past the end leaves a zero-filled
      gap; an empty write changes nothing, since a seek alone never extends a file. */
  function WriteAt(file: Image, offset: nat, data: Image): (r: Image)
    ensures |data| == 0 ==> r == file
    ensures |data| > 0 ==> |r| == Max(|file|, offset + |data|)
    ensures |data| > 0 ==> r[offset..offset + |data|] == data
    ensures forall i | 0 <= i < |file| && !(offset <= i < offset + |data|) :: r[i] == file[i]
    ensures |data| > 0 ==> forall i | |file| <= i < offset :: r[i] == 0
  {
    if |data| == 0 then file
    else if offset <= |file| then
      file[..offset] + data + file[Min(offset + |data|, |file|)..]
    else
      file + Zeros(offset - |file|) + data
  }

  /** Writing the same bytes twice at the same place is the same as writing them once. */
  lemma WriteAtIdempotent(file: Image, offset: nat, data: Image)
    ensures WriteAt(WriteAt(file, offset, data), offset, data) == WriteAt(file, offset, data)
  {
  }

  /** The loop of `create_image`: `count` sectors of 512 zero bytes, one sector per write. */
  method WriteZeroSectors(count: nat) returns (out: Image)
    ensures |out| == count * SectorSize
    ensures forall i | 0 <= i < |out| :: out[i] == 0
  {
    out := [];
    var written := 0;
    while written < count
      invariant written <= count
      invariant |out| == written * SectorSize
      invariant forall i | 0 <= i < |out| :: out[i] == 0
    {
      out := out + Zeros(SectorSize);
      written := written + 1;
    }
  }

  /** `create_image`: write the zero sectors, then have the partition-table tool write an
      msdos label. `writeOk` and `labelOk` are the outcomes of the file write and of the
      tool; the image returned is the zero-filled file handed to the tool. */
  method CreateImage(sizeMiB: int, writeOk: bool, labelOk: bool) returns (r: Result<Image>)
    ensures r.Ok? <==> writeOk && labelOk
    ensures !writeOk ==> r == Err(IoFailure)
    ensures writeOk && !labelOk ==> r == Err(LabelFailed)
    ensures r.Ok? ==> |r.value| == ImageSectors(sizeMiB) * SectorSize
    ensures r.Ok? && sizeMiB >= 0 ==> |r.value| == sizeMiB * MiB
    ensures r.Ok? ==> forall i | 0 <= i < |r.value| :: r.value[i] == 0
  {
    if !writeOk {
      return Err(IoFailure);
    }
    var image := WriteZeroSectors(ImageSectors(sizeMiB));
    if !labelOk {
      return Err(LabelFailed);
    }
    r := Ok(image);
  }

  /** `add_mbr`: read at most 446 bytes of the boot sector file and write them at the
      start of the image. `ioOk` says whether the read, seek, write and closes after the
      two opens raise nothing; the handler turns any of those errors into an abort. */
  function AddMbr(image: Option<Image>, mbr: Option<Image>, ioOk: bool): (r: Result<Image>)
    ensures r.Ok? <==> image.Some? && mbr.Some? && ioOk
    ensures r.Err? ==> r.error == IoFailure
    ensures r.Ok? ==>
      var k := Min(BootstrapSize, |mbr.value|);
      && |r.value| == Max(|image.value|, k)
      && r.value[..k] == mbr.value[..k]
      && forall i | k <= i < |image.value| :: r.value[i] == image.value[i]
  {
    match (image, mbr)
    case (Some(img), Some(sector)) =>
      var bootstrap := sector[..Min(BootstrapSize, |sector|)];
      if ioOk then Ok(WriteAt(img, 0, bootstrap)) else Err(IoFailure)
    case _ => Err(IoFailure)
  }

  /** Loading a boot sector never touches the partition-entry region or the signature:
      every byte from offset 446 on is the image's own. */
  lemma AddMbrKeepsPartitionTable(image: Image, mbr: Image)
    requires |image| >= SectorSize
    ensures AddMbr(Some(image), Some(mbr), true).Ok?
    ensures AddMbr(Some(image), Some(mbr), true).value[BootstrapSize..] == image[BootstrapSize..]
  {
    var r := AddMbr(Some(image), Some(mbr), true).value;
    assert |r| == |image|;
    forall i | BootstrapSize <= i < |image|
      ensures r[i] == image[i]
    {
    }
  }

  /** `data.read(n)` on a file opened in binary mode: -1 reads to end of file, a
      non-negative size reads at most `n` bytes, any other size raises `ValueError`. */
  function ReadUpTo(data: Image, n: int): Result<Image> {
    if n == -1 then Ok(data)
    else if n < 0 then Err(BadReadLength)
    else Ok(data[..Min(n, |data|)])
  }

  /** The bytes `inject` writes: the whole file for a truncation length of -1, otherwise
      what `read(trunc_length)` returns. */
  function Payload(data: Image, truncLength: int): (r: Result<Image>)
    ensures r.Ok? <==> truncLength >= -1
    ensures r.Err? ==> r.error == BadReadLength
    ensures truncLength == -1 ==> r == Ok(data)
    ensures r.Ok? ==> r.value <= data
    ensures truncLength >= 0 ==> r.Ok? && |r.value| == Min(truncLength, |data|)
  {
    if truncLength == -1 then Ok(data) else ReadUpTo(data, truncLength)
  }

  /** `inject`: write the payload at `startingIndex`. Nothing compares the write with the
      image length, so the image grows when a non-empty write runs past its end. `ioOk`
      says whether the read, seek, write and closes after the two opens raise nothing. A
      truncation length below -1 makes the read raise `ValueError`, which the handler for
      I/O errors does not catch, so the command ends before anything is written. */
  function Inject(image: Option<Image>, data: Option<Image>, truncLength: int, startingIndex: nat, ioOk: bool): (r: Result<Image>)
    ensures r.Ok? <==> image.Some? && data.Some? && truncLength >= -1 && ioOk
    ensures image.None? || data.None? ==> r == Err(IoFailure)
    ensures image.Some? && data.Some? && truncLength < -1 ==> r == Err(BadReadLength)
    ensures image.Some? && data.Some? && truncLength >= -1 && !ioOk ==> r == Err(IoFailure)
    ensures r.Ok? ==>
      var p := Payload(data.value, truncLength).value;
      && |r.value| == (if |p| == 0 then |image.value| else Max(|image.value|, startingIndex + |p|))
      && (|p| > 0 ==> r.value[startingIndex..startingIndex + |p|] == p)
      && (|p| > 0 ==> forall i | |image.value| <= i < startingIndex :: r.value[i] == 0)
      && forall i | 0 <= i < |image.value| && !(startingIndex <= i < startingIndex + |p|) :: r.value[i] == image.value[i]
  {
    match (image, data)
    case (Some(img), Some(raw)) =>
      (match Payload(raw, truncLength)
       case Err(f) => Err(f)
       case Ok(p) => if ioOk then Ok(WriteAt(img, startingIndex, p)) else Err(IoFailure))
    case _ => Err(IoFailure)
  }

  /** An injection that starts at or past the end of the image extends it instead of
      failing: no bounds check guards the write. */
  lemma InjectPastEndGrowsImage(image: Image, data: Image, truncLength: int, startingIndex: nat)
    requires startingIndex >= |image|
    requires Payload(data, truncLength).Ok? && |Payload(data, truncLength).value| > 0
    ensures Inject(Some(image), Some(data), truncLength, startingIndex, true).Ok?
    ensures |Inject(Some(image), Some(data), truncLength, startingIndex, true).value| > |image|
  {
  }

  /** An empty payload leaves the image as it was, wherever the seek went. */
  lemma InjectEmptyPayloadKeepsImage(image: Image, data: Image, truncLength: int, startingIndex: nat)
    requires Payload(data, truncLength) == Ok([])
    ensures Inject(Some(image), Some(data), truncLength, startingIndex, true) == Ok(image)
  {
  }
}

=== FILE: legacy.dfy ===
/** The older tool, src/diskmgmt.py. Its arithmetic and byte handling agree with the newer
    tool; its `format_partition` releases the loop device only on the success path, because
    a failed format ends the process with `os._exit(1)`, which runs no cleanup. */
module Legacy {
  import opened Outcomes
  import opened Sectors
  import Images
  import opened Protocol
  import Commands

  /** `attachLoopback` arithmetic. */
  function AttachLoopback(start: int, end: int): (m: Mapping)
    ensures m == LoopRange(start, end)
  {
    Mapping(start * 512, (end - start) * 512)
  }

  /** Sector count of `create_image` under Python 2: `image_size * (2 ** 20) / 512` is an
      integer division rounding down, and `range` of a non-positive count writes nothing. */
  function ImageSectors(sizeMiB: int): (n: nat)
    ensures n == Sectors.ImageSectors(sizeMiB)
  {
    var q := sizeMiB * MiB / SectorSize;
    assert q == sizeMiB * 2048 by {
      assert sizeMiB * MiB == (sizeMiB * 2048) * 512;
    }
    if q <= 0 then 0 else q
  }

  /** `create_image`: the zero sectors, then the label written by the partition-table tool. */
  method CreateImage(sizeMiB: int, writeOk: bool, labelOk: bool) returns (r: Result<Images.Image>)
    ensures r.Ok? <==> writeOk && labelOk
    ensures r.Ok? && sizeMiB >= 0 ==> |r.value| == sizeMiB * MiB
    ensures r.Ok? && sizeMiB <= 0 ==> |r.value| == 0
    ensures r.Ok? ==> forall i | 0 <= i < |r.value| :: r.value[i] == 0
  {
    if !writeOk {
      return Err(IoFailure);
    }
    var image := Images.WriteZeroSectors(ImageSectors(sizeMiB));
    if !labelOk {
      return Err(LabelFailed);
    }
    r := Ok(image);
  }

  /** `add_mbr`: the first at most 446 bytes of the boot sector file replace the start of
      the image; the result is the one the newer tool computes. */
  function AddMbr(image: Option<Images.Image>, mbr: Option<Images.Image>, ioOk: bool): (r: Result<Images.Image>)
    ensures r == Images.AddMbr(image, mbr, ioOk)
  {
    match (image, mbr)
    case (Some(img), Some(sector)) =>
      var bootstrap := sector[..Min(Images.BootstrapSize, |sector|)];
      var written := if |img| <= |bootstrap| then bootstrap else bootstrap + img[|bootstrap|..];
      assert written == Images.WriteAt(img, 0, bootstrap);
      if ioOk then Ok(written) else Err(IoFailure)
    case _ => Err(IoFailure)
  }

  /** `format_partition` of the older tool: create the partition, bind a loop device, run
      the FAT32 formatter (nothing for other types), release the device. A failed format
      calls `os._exit(1)` before the release. */
  function FormatPartition(fsType: string, start: int, end: int, w: Commands.FormatWorld): (r: Commands.Run)
    ensures |r.trace| > 0 && r.trace[0] == MakePartition(fsType, start, end)
    ensures !w.mkpart ==> r == Commands.Run([MakePartition(fsType, start, end)], Commands.Aborted(PartitionFailed))
    ensures Format in r.trace <==> w.mkpart && w.attach && fsType == Commands.Fat32
    ensures r.status == Commands.Completed <==>
      w.mkpart && w.attach && (fsType == Commands.Fat32 ==> w.mkfs) && w.detach
  {
    var create := MakePartition(fsType, start, end);
    var bind := Attach(AttachLoopback(start, end));
    if !w.mkpart then Commands.Run([create], Commands.Aborted(PartitionFailed))
    else if !w.attach then Commands.Run([create], Commands.Aborted(NoLoopDevice))
    else if fsType == Commands.Fat32 && !w.mkfs then
      Commands.Run([create, bind, Format], Commands.Aborted(FormatFailed))
    else
      var inner := if fsType == Commands.Fat32 then [Format] else [];
      Commands.Run([create, bind] + inner + [Detach],
                   if w.detach then Commands.Completed else Commands.Aborted(DetachFailed))
  }

  /** The older `format_partition` releases each bind exactly once in every world except
      one: the device was bound, the type is FAT32 and the formatter failed. */
  lemma FormatBalancedIffFormatterSucceeds(fsType: string, start: int, end: int, w: Commands.FormatWorld)
    ensures Balanced(FormatPartition(fsType, start, end, w).trace)
        <==> !(w.mkpart && w.attach && fsType == Commands.Fat32 && !w.mkfs)
  {
    var r := FormatPartition(fsType, start, end, w);
    var create := MakePartition(fsType, start, end);
    var m := LoopRange(start, end);
    if !w.mkpart || !w.attach {
      TableStepsAreBalanced(r.trace);
    } else if fsType == Commands.Fat32 && !w.mkfs {
      LeakedTrace(create, m);
    } else {
      var inner := if fsType == Commands.Fat32 then [Format] else [];
      assert r.trace == [create] + [Attach(m)] + inner + [Detach];
      BracketIsBalanced([create], m, inner);
    }
  }

  /** The input that shows the leak: the device is bound once and never released. */
  lemma FormatFailureLeaksMapping(start: int, end: int)
    ensures
      var r := FormatPartition(Commands.Fat32, start, end, Commands.FormatWorld(true, true, false, true));
      && r.status == Commands.Aborted(FormatFailed)
      && Attaches(r.trace) == 1 && Detaches(r.trace) == 0
  {
    var create := MakePartition(Commands.Fat32, start, end);
    LeakedTrace(create, LoopRange(start, end));
  }

  /** The trace a failed format leaves: one bind, no release, not in order. */
  lemma LeakedTrace(create: Event, m: Mapping)
    requires create.MakePartition?
    ensures Attaches([create, Attach(m), Format]) == 1
    ensures Detaches([create, Attach(m), Format]) == 0
    ensures !Scoped([create, Attach(m), Format])
  {
    var t := [create, Attach(m), Format];
    var bound := [Attach(m), Format];
    assert t[1..] == bound && bound[1..] == [Format] && [Format][1..] == [];
    assert Attaches([Format]) == 0 && Detaches([Format]) == 0 && !ScopedFrom([Format], true);
    assert Attaches(bound) == 1 && Detaches(bound) == 0 && !ScopedFrom(bound, false);
  }

  /** Where the older tool does release, it does exactly what the newer one does. */
  lemma FormatAgreesWhenFormatterSucceeds(start: int, end: int, w: Commands.FormatWorld)
    requires w.mkfs
    ensures FormatPartition(Commands.Fat32, start, end, w) == Commands.FormatPartition(Commands.Fat32, start, end, w)
  {
  }

  /** For any type other than FAT32 no formatter runs: the device is bound and released. */
  lemma NonFat32OnlyBindsAndReleases(fsType: string, start: int, end: int, w: Commands.FormatWorld)
    requires fsType != Commands.Fat32 && w.mkpart && w.attach
    ensures FormatPartition(fsType, start, end, w).trace ==
      [MakePartition(fsType, start, end), Attach(LoopRange(start, end)), Detach]
  {
  }
}

=== FILE: listing.dfy ===
/** Boundary lookup: the start and end sector of a partition are read from the text the
    partition-table tool prints in sector units. The lookup is the leftmost match of the
    regular expression `<index>\s+([0-9]*)s\s+([0-9]*)s`.

    At any position that expression can match in only one way: the whitespace and digit
    runs are greedy and the character that ends each run (a digit or `s` after
    whitespace, `s` after digits) can never belong to the run, so no backtracking helps.
    `Spells` states such a match declaratively and `ScanAt` finds it greedily; the two are
    proved to agree. */
module Listing {
  import opened Outcomes

  /** Characters a Python `\s` matches in a text pattern. */
  predicate IsSpace(c: char) {
    || c == ' '
    || '\t' <= c <= '\r'
    || '\U{1c}' <= c <= '\U{1f}'
    || c == '\U{85}' || c == '\U{a0}' || c == '\U{1680}'
    || '\U{2000}' <= c <= '\U{200a}'
    || c == '\U{2028}' || c == '\U{2029}' || c == '\U{202f}' || c == '\U{205f}' || c == '\U{3000}'
  }

  predicate IsDigit(c: char) {
    '0' <= c <= '9'
  }

  /** The two character classes the pattern uses. */
  datatype Class = Space | Digit

  predicate InClass(c: char, k: Class) {
    match k
    case Space => IsSpace(c)
    case Digit => IsDigit(c)
  }

  predicate AllSpace(s: string) {
    forall i | 0 <= i < |s| :: IsSpace(s[i])
  }

  predicate AllDigits(s: string) {
    forall i | 0 <= i < |s| :: IsDigit(s[i])
  }

  // ---------------------------------------------------------------- decimal numbers

  function DigitValue(c: char): nat
    requires IsDigit(c)
  {
    c as nat - '0' as nat
  }

  function DigitChar(d: nat): (c: char)
    requires d < 10
    ensures IsDigit(c) && DigitValue(c) == d
  {
    ('0' as nat + d) as char
  }

  /** Python `int()` of a string of ASCII digits (leading zeros allowed). */
  function Value(s: string): nat
    requires AllDigits(s)
  {
    if |s| == 0 then 0 else Value(s[..|s| - 1]) * 10 + DigitValue(s[|s| - 1])
  }

  /** Python `str()` of a natural number. */
  function Render(n: nat): (s: string)
    ensures |s| > 0 && AllDigits(s)
  {
    if n < 10 then [DigitChar(n)] else Render(n / 10) + [DigitChar(n % 10)]
  }

  /** Reading back a rendered number gives the number. */
  lemma {:induction false} ValueOfRender(n: nat)
    ensures Value(Render(n)) == n
  {
    if n >= 10 {
      var s := Render(n);
      assert s[..|s| - 1] == Render(n / 10);
      ValueOfRender(n / 10);
    }
  }

  /** The text `'{0}'.format(index)` puts in front of the pattern. */
  function IndexText(index: int): (s: string)
    ensures |s| > 0
    ensures s[0] == '-' || IsDigit(s[0])
  {
    if index < 0 then "-" + Render(-index) else Render(index)
  }

  // ---------------------------------------------------------------- the pattern

  /** The four captured pieces of one match: the whitespace after the index, the start
      digits, the whitespace after the first `s`, and the end digits. */
  datatype Row = Row(gap1: string, start: string, gap2: string, end: string)

  predicate WellFormed(m: Row) {
    && |m.gap1| > 0 && AllSpace(m.gap1)
    && AllDigits(m.start)
    && |m.gap2| > 0 && AllSpace(m.gap2)
    && AllDigits(m.end)
  }

  /** The sub-pattern `\s+([0-9]*)s` matches at `i` with whitespace `gap` and digits `digits`. */
  predicate FieldAt(text: string, i: nat, gap: string, digits: string) {
    var b := i + |gap|;
    var c := b + |digits|;
    && |gap| > 0 && AllSpace(gap) && AllDigits(digits)
    && c < |text|
    && text[i..b] == gap
    && text[b..c] == digits
    && text[c] == 's'
  }

  /** The two fields `\s+([0-9]*)s\s+([0-9]*)s` match from `a` with pieces `m`, the second
      starting right after the first field's `s`. */
  predicate FieldsAt(text: string, a: nat, m: Row) {
    && FieldAt(text, a, m.gap1, m.start)
    && FieldAt(text, a + |m.gap1| + |m.start| + 1, m.gap2, m.end)
  }

  /** `<pat>\s+([0-9]*)s\s+([0-9]*)s` matches `text` at position `p` with pieces `m`:
      the index text, then the two fields. */
  predicate Spells(text: string, p: nat, pat: string, m: Row) {
    && p + |pat| <= |text|
    && text[p..p + |pat|] == pat
    && FieldsAt(text, p + |pat|, m)
  }

  // ---------------------------------------------------------------- the scanner

  /** Length of the longest run of characters of class `k` starting at `i`. */
  function Span(s: string, i: nat, k: Class): (n: nat)
    requires i <= |s|
    ensures i + n <= |s|
    decreases |s| - i
  {
    if i < |s| && InClass(s[i], k) then 1 + Span(s, i + 1, k) else 0
  }

  /** The run `Span` measures holds only class-`k` characters and cannot be extended. */
  lemma {:induction false} SpanIsRun(s: string, i: nat, k: Class)
    requires i <= |s|
    ensures forall j | i <= j < i + Span(s, i, k) :: InClass(s[j], k)
    ensures i + Span(s, i, k) == |s| || !InClass(s[i + Span(s, i, k)], k)
    decreases |s| - i
  {
    if i < |s| && InClass(s[i], k) {
      SpanIsRun(s, i + 1, k);
    }
  }

  /** A run of class-`k` characters that cannot be extended is the one `Span` finds. */
  lemma {:induction false} SpanIsMaximalRun(s: string, i: nat, k: Class, n: nat)
    requires i + n <= |s|
    requires forall j | i <= j < i + n :: InClass(s[j], k)
    requires i + n == |s| || !InClass(s[i + n], k)
    ensures Span(s, i, k) == n
    decreases n
  {
    if n > 0 {
      SpanIsMaximalRun(s, i + 1, k, n - 1);
    }
  }

  /** The engine on `\s+([0-9]*)s` at `i`: greedy whitespace (at least one), greedy digits,
      then `s`. */
  function ScanField(text: string, i: nat): (r: Option<(string, string)>)
    requires i <= |text|
    ensures r.Some? ==> i + |r.value.0| + |r.value.1| < |text|
  {
    var b := i + Span(text, i, Space);
    var c := b + Span(text, b, Digit);
    if b == i || c >= |text| || text[c] != 's' then None
    else Some((text[i..b], text[b..c]))
  }

  /** The engine on the two fields from `a`. */
  function ScanFields(text: string, a: nat): Option<Row>
    requires a <= |text|
  {
    match ScanField(text, a)
    case None => None
    case Some((gap1, start)) =>
      match ScanField(text, a + |gap1| + |start| + 1)
      case None => None
      case Some((gap2, end)) => Some(Row(gap1, start, gap2, end))
  }

  /** The regular-expression engine at one position: the index text, then two fields. */
  function ScanAt(text: string, p: nat, pat: string): Option<Row> {
    if p + |pat| > |text| || text[p..p + |pat|] != pat then None
    else ScanFields(text, p + |pat|)
  }

  lemma ScanFieldSound(text: string, i: nat)
    requires i <= |text|
    requires ScanField(text, i).Some?
    ensures FieldAt(text, i, ScanField(text, i).value.0, ScanField(text, i).value.1)
  {
    SpanIsRun(text, i, Space);
    SpanIsRun(text, i + Span(text, i, Space), Digit);
  }

  lemma ScanFieldsSound(text: string, a: nat)
    requires a <= |text|
    requires ScanFields(text, a).Some?
    ensures FieldsAt(text, a, ScanFields(text, a).value)
  {
    var first := ScanField(text, a).value;
    ScanFieldSound(text, a);
    ScanFieldSound(text, a + |first.0| + |first.1| + 1);
  }

  lemma ScanAtSound(text: string, p: nat, pat: string)
    requires ScanAt(text, p, pat).Some?
    ensures Spells(text, p, pat, ScanAt(text, p, pat).value)
  {
    ScanFieldsSound(text, p + |pat|);
  }

  /** A piece of the match is exactly the run `Span` measures from its first position. */
  lemma PieceIsRun(text: string, i: nat, piece: string, k: Class)
    requires i + |piece| < |text|
    requires text[i..i + |piece|] == piece
    requires forall j | 0 <= j < |piece| :: InClass(piece[j], k)
    requires !InClass(text[i + |piece|], k)
    ensures Span(text, i, k) == |piece|
  {
    forall j | i <= j < i + |piece|
      ensures InClass(text[j], k)
    {
      assert text[j] == piece[j - i];
    }
    SpanIsMaximalRun(text, i, k, |piece|);
  }

  lemma ScanFieldComplete(text: string, i: nat, gap: string, digits: string)
    requires FieldAt(text, i, gap, digits)
    ensures ScanField(text, i) == Some((gap, digits))
  {
    var b := i + |gap|;
    var c := b + |digits|;
    assert !IsSpace(text[b]) by {
      if |digits| > 0 {
        assert text[b] == digits[0];
      }
    }
    PieceIsRun(text, i, gap, Space);
    PieceIsRun(text, b, digits, Digit);
  }

  /** Two fields that each scan give the row of both. */
  lemma ScanFieldsOfFields(text: string, a: nat, m: Row)
    requires a <= |text|
    requires ScanField(text, a) == Some((m.gap1, m.start))
    requires ScanField(text, a + |m.gap1| + |m.start| + 1) == Some((m.gap2, m.end))
    ensures ScanFields(text, a) == Some(m)
  {
  }

  lemma ScanFieldsComplete(text: string, a: nat, m: Row)
    requires a <= |text|
    requires FieldsAt(text, a, m)
    ensures ScanFields(text, a) == Some(m)
  {
    ScanFieldComplete(text, a, m.gap1, m.start);
    ScanFieldComplete(text, a + |m.gap1| + |m.start| + 1, m.gap2, m.end);
    ScanFieldsOfFields(text, a, m);
  }

  lemma ScanAtComplete(text: string, p: nat, pat: string, m: Row)
    requires Spells(text, p, pat, m)
    ensures ScanAt(text, p, pat) == Some(m)
  {
    ScanFieldsComplete(text, p + |pat|, m);
  }

  /** The scanner succeeds at a position exactly when the pattern matches there, and then
      it returns the unique pieces of that match. */
  lemma ScanAtMatchesSpells(text: string, p: nat, pat: string, m: Row)
    ensures ScanAt(text, p, pat) == Some(m) <==> Spells(text, p, pat, m)
  {
    if ScanAt(text, p, pat) == Some(m) {
      ScanAtSound(text, p, pat);
    }
    if Spells(text, p, pat, m) {
      ScanAtComplete(text, p, pat, m);
    }
  }

  /** The search `findall(...)[0]` performs: the first position from `from` on where the
      scanner succeeds. */
  function FirstRow(text: string, pat: string, from: nat): (r: Option<(nat, Row)>)
    ensures r.Some? ==> from <= r.value.0 && ScanAt(text, r.value.0, pat) == Some(r.value.1)
    ensures r.Some? ==> forall q | from <= q < r.value.0 :: ScanAt(text, q, pat).None?
    ensures r.None? ==> forall q | from <= q :: ScanAt(text, q, pat).None?
    decreases |text| + 1 - from
  {
    if from > |text| then None
    else
      match ScanAt(text, from, pat)
      case Some(m) => Some((from, m))
      case None => FirstRow(text, pat, from + 1)
  }

  // ---------------------------------------------------------------- boundary lookup

  /** What the listing command produced: a failure of the tool, bytes that do not decode
      as UTF-8, or the decoded text. */
  datatype ToolOutput = ToolFailed | Undecodable | Output(text: string)

  /** `extract_partition_boundaries`: the two numbers of the leftmost match. No match aborts
      with "doesn't exist"; an empty digit group makes `int()` fail. The decode error is
      not caught by the tool and ends the command like the other failures. */
  function ExtractBoundaries(index: int, listing: ToolOutput): (r: Result<(nat, nat)>)
    ensures listing.ToolFailed? ==> r == Err(ListingFailed)
    ensures listing.Undecodable? ==> r == Err(ListingNotText)
    ensures r.Err? ==> r.error in {ListingFailed, ListingNotText, NoSuchPartition(index), BadSectorField}
  {
    match listing
    case ToolFailed => Err(ListingFailed)
    case Undecodable => Err(ListingNotText)
    case Output(text) =>
      match FirstRow(text, IndexText(index), 0)
      case None => Err(NoSuchPartition(index))
      case Some((p, m)) =>
        ScanAtSound(text, p, IndexText(index));
        RowValues(m)
  }

  /** The numbers a match yields, or the `int()` failure for an empty digit group. */
  function RowValues(m: Row): Result<(nat, nat)>
    requires WellFormed(m)
  {
    if |m.start| == 0 || |m.end| == 0 then Err(BadSectorField) else Ok((Value(m.start), Value(m.end)))
  }

  /** The lookup is decided by the leftmost match of the pattern and by nothing else. */
  lemma ExtractUsesLeftmostMatch(index: int, text: string, p: nat, m: Row)
    requires Spells(text, p, IndexText(index), m)
    requires forall q: nat, m': Row | q < p :: !Spells(text, q, IndexText(index), m')
    ensures ExtractBoundaries(index, Output(text)) == RowValues(m)
  {
    var pat := IndexText(index);
    ScanAtComplete(text, p, pat, m);
    var r := FirstRow(text, pat, 0);
    assert r.Some? && r.value.0 <= p;
    if r.value.0 < p {
      ScanAtSound(text, r.value.0, pat);
      assert false;
    }
    assert r.value == (p, m);
  }

  /** The lookup reports a missing partition exactly when the pattern matches nowhere. */
  lemma ExtractMissingIffNoMatch(index: int, text: string)
    ensures ExtractBoundaries(index, Output(text)) == Err(NoSuchPartition(index))
        <==> forall p: nat, m: Row :: !Spells(text, p, IndexText(index), m)
  {
    var pat := IndexText(index);
    var r := FirstRow(text, pat, 0);
    if r.Some? {
      ScanAtSound(text, r.value.0, pat);
    } else {
      forall p: nat, m: Row
        ensures !Spells(text, p, pat, m)
      {
        if Spells(text, p, pat, m) {
          ScanAtComplete(text, p, pat, m);
        }
      }
    }
  }

  /** The pattern is not anchored: a match for a longer index text contains a match for
      its suffix, so the row of partition 11 also answers a lookup of partition 1. */
  lemma UnanchoredSuffixMatches(text: string, p: nat, c: char, pat: string, m: Row)
    requires Spells(text, p, [c] + pat, m)
    ensures Spells(text, p + 1, pat, m)
  {
    var a := p + 1 + |pat|;
    assert text[p + 1..a] == text[p..a][1..];
  }

  /** Column padding: the tool pads each cell of its table with blanks to the column's
      width, so the gaps between cells vary with the numbers printed. */
  predicate Padding(g: string) {
    |g| > 0 && AllSpace(g)
  }

  /** The start of the row the partition-table tool prints for a partition in sector
      units: a blank, the index, then the start and end sectors, each after its padding. */
  function PrintedRow(index: int, gap1: string, start: nat, gap2: string, end: nat): string {
    " " + IndexText(index) + gap1 + Render(start) + "s" + gap2 + Render(end) + "s"
  }

  /** A listing that holds a partition's printed row, after header lines in which the
      pattern matches nowhere, yields exactly that partition's boundaries. */
  lemma ListedRowIsFound(index: int, gap1: string, start: nat, gap2: string, end: nat, header: string, rest: string)
    requires Padding(gap1) && Padding(gap2)
    requires forall q: nat, m': Row | q < |header| ::
      !Spells(header + PrintedRow(index, gap1, start, gap2, end) + rest, q, IndexText(index), m')
    ensures ExtractBoundaries(index, Output(header + PrintedRow(index, gap1, start, gap2, end) + rest)) == Ok((start, end))
  {
    var m := Row(gap1, Render(start), gap2, Render(end));
    var row := PrintedRow(index, gap1, start, gap2, end) + rest;
    assert header + PrintedRow(index, gap1, start, gap2, end) + rest == header + row;
    PrintedRowSpells(index, gap1, start, gap2, end, rest);
    FoundAfterHeader(index, header, row, m);
    ValueOfRender(start);
    ValueOfRender(end);
  }

  /** A match right after the blank that starts `row`, with none inside `header`, is the
      one the lookup in `header + row` uses. */
  lemma FoundAfterHeader(index: int, header: string, row: string, m: Row)
    requires |row| > 0 && row[0] == ' ' && Spells(row, 1, IndexText(index), m)
    requires forall q: nat, m': Row | q < |header| :: !Spells(header + row, q, IndexText(index), m')
    ensures ExtractBoundaries(index, Output(header + row)) == RowValues(m)
  {
    var line := header + row;
    assert Embeds(line, |header|, row);
    SpellsEmbedded(line, |header|, row, 1, IndexText(index), m);
    FoundAfterBlank(index, line, |header|, m);
  }

  /** The printed row starts with a blank and matches the pattern right after it. */
  lemma PrintedRowSpells(index: int, gap1: string, start: nat, gap2: string, end: nat, rest: string)
    requires Padding(gap1) && Padding(gap2)
    ensures (PrintedRow(index, gap1, start, gap2, end) + rest)[0] == ' '
    ensures Spells(PrintedRow(index, gap1, start, gap2, end) + rest, 1, IndexText(index), Row(gap1, Render(start), gap2, Render(end)))
  {
    ListedRowSpells(IndexText(index), Row(gap1, Render(start), gap2, Render(end)), rest);
  }

  /** A match right after a blank, with none before the blank, is the one the lookup uses. */
  lemma FoundAfterBlank(index: int, line: string, i: nat, m: Row)
    requires i < |line| && line[i] == ' '
    requires Spells(line, i + 1, IndexText(index), m)
    requires forall q: nat, m': Row | q < i :: !Spells(line, q, IndexText(index), m')
    ensures ExtractBoundaries(index, Output(line)) == RowValues(m)
  {
    NoMatchAtBlank(line, i, IndexText(index));
    ExtractUsesLeftmostMatch(index, line, i + 1, m);
  }

  /** `line` holds `text` from position `h` on. */
  predicate Embeds(line: string, h: nat, text: string) {
    h + |text| <= |line| && forall j | 0 <= j < |text| :: line[h + j] == text[j]
  }

  /** A match in a text is still a match, moved along, in a line that holds the text. */
  lemma SpellsEmbedded(line: string, h: nat, text: string, p: nat, pat: string, m: Row)
    requires Embeds(line, h, text) && Spells(text, p, pat, m)
    ensures Spells(line, h + p, pat, m)
  {
    var a := p + |pat|;
    SliceEmbedded(line, h, text, p, a);
    FieldsEmbedded(line, h, text, a, m);
    assert h + p + |pat| == h + a;
  }

  lemma FieldsEmbedded(line: string, h: nat, text: string, a: nat, m: Row)
    requires Embeds(line, h, text) && FieldsAt(text, a, m)
    ensures FieldsAt(line, h + a, m)
  {
    var a2 := a + |m.gap1| + |m.start| + 1;
    FieldEmbedded(line, h, text, a, m.gap1, m.start);
    FieldEmbedded(line, h, text, a2, m.gap2, m.end);
    assert h + a + |m.gap1| + |m.start| + 1 == h + a2;
  }

  lemma FieldEmbedded(line: string, h: nat, text: string, i: nat, gap: string, digits: string)
    requires Embeds(line, h, text) && FieldAt(text, i, gap, digits)
    ensures FieldAt(line, h + i, gap, digits)
  {
    var b := i + |gap|;
    SliceEmbedded(line, h, text, i, b);
    SliceEmbedded(line, h, text, b, b + |digits|);
  }

  lemma SliceEmbedded(line: string, h: nat, text: string, x: nat, y: nat)
    requires Embeds(line, h, text) && x <= y <= |text|
    ensures line[h + x..h + y] == text[x..y]
  {
  }

  /** No match can start on a blank when the index text does not start with one. */
  lemma NoMatchAtBlank(line: string, i: nat, pat: string)
    requires i < |line| && line[i] == ' '
    requires |pat| > 0 && (pat[0] == '-' || IsDigit(pat[0]))
    ensures forall m': Row :: !Spells(line, i, pat, m')
  {
  }

  lemma ListedRowSpells(pat: string, m: Row, rest: string)
    requires WellFormed(m)
    ensures Spells(" " + pat + m.gap1 + m.start + "s" + m.gap2 + m.end + "s" + rest, 1, pat, m)
  {
  }

  /** Concretely: with only a row for partition 11, a lookup of partition 1 succeeds. */
  lemma Partition11AnswersPartition1()
    ensures ExtractBoundaries(1, Output("11 8s 9s")) == Ok((8, 9))
  {
    var text := "11 8s 9s";
    var m := Row(" ", "8", " ", "9");
    RowOfPartition11(text, m);
    UnanchoredSuffixMatches(text, 0, '1', "1", m);
    NoMatchBeforeSecondDigit(text);
    assert IndexText(1) == "1";
    ExtractUsesLeftmostMatch(1, text, 1, m);
    assert Value("8") == 8 && Value("9") == 9;
  }

  lemma RowOfPartition11(text: string, m: Row)
    requires text == "11 8s 9s" && m == Row(" ", "8", " ", "9")
    ensures Spells(text, 0, "11", m)
  {
  }

  lemma NoMatchBeforeSecondDigit(text: string)
    requires text == "11 8s 9s"
    ensures forall q: nat, m': Row | q < 1 :: !Spells(text, q, "1", m')
  {
    assert text[1] == '1' && !IsSpace('1');
  }
}

=== FILE: outcomes.dfy ===
/** Failure kinds and the result types shared by every part of the disk-image model.
    Each `Failure` stands for one of the places where the tool prints a message and
    aborts (or where an uncaught Python exception ends the command). */
module Outcomes {

  datatype Failure =
    | InvalidPartitionIndex(index: int)  // index outside the four primary slots
    | IoFailure                          // an image or input file could not be opened or written
    | BadReadLength                      // a read size below -1 makes a binary read raise
    | LabelFailed                        // the partition-table tool could not write a label
    | ListingFailed                      // the partition-table tool could not list the table
    | ListingNotText                     // the listing is not valid UTF-8
    | NoSuchPartition(index: int)        // the listing has no row for the index
    | BadSectorField                     // a matched sector field is empty, so it is not a number
    | PartitionFailed                    // the partition-table tool could not create the partition
    | NoLoopDevice                       // no loop device could be bound
    | FormatFailed                       // the FAT32 formatter failed
    | UnsupportedFilesystem              // no formatter exists for the requested type
    | MountFailed
    | CopyFailed
    | UnmountFailed
    | DetachFailed

  datatype Option<+T> = None | Some(value: T)

  datatype Result<+T> = Ok(value: T) | Err(error: Failure)

  function Min(a: int, b: int): int {
    if a <= b then a else b
  }

  function Max(a: int, b: int): int {
    if a <= b then b else a
  }
}

=== FILE: protocol.dfy ===
/** The loop-device discipline as a property of event traces. A command is modelled as
    the sequence of external steps it starts; `Scoped` says that the partition table is
    only touched while no loop device is bound, that the bound device is only used while
    it is bound, and that every binding is released before the command ends. */
module Protocol {
  import opened Sectors

  datatype Event =
    | MakePartition(fsType: string, start: int, end: int)  // partition-table tool: mkpart
    | ListTable                                           // partition-table tool: print in sectors
    | Attach(mapping: Mapping)                            // a loop device is bound to the window
    | Format                                              // FAT32 formatter on the loop device
    | Mount(fsType: string)                               // mount of the loop device at the scratch path
    | Copy                                                // copy of the file into the mounted tree
    | Unmount                                             // umount of the scratch path
    | Detach                                              // the loop device is released

  predicate UsesTable(e: Event) {
    e.MakePartition? || e.ListTable?
  }

  predicate UsesDevice(e: Event) {
    e.Format? || e.Mount? || e.Copy? || e.Unmount?
  }

  /** The trace `t` obeys the discipline when a loop device is (`live`) or is not bound
      before its first event. */
  predicate ScopedFrom(t: seq<Event>, live: bool)
    decreases |t|
  {
    if |t| == 0 then !live
    else
      var e := t[0];
      if e.Attach? then !live && ScopedFrom(t[1..], true)
      else if e.Detach? then live && ScopedFrom(t[1..], false)
      else if UsesDevice(e) then live && ScopedFrom(t[1..], true)
      else !live && ScopedFrom(t[1..], false)
  }

  predicate Scoped(t: seq<Event>) {
    ScopedFrom(t, false)
  }

  function Attaches(t: seq<Event>): nat {
    if |t| == 0 then 0 else (if t[0].Attach? then 1 else 0) + Attaches(t[1..])
  }

  function Detaches(t: seq<Event>): nat {
    if |t| == 0 then 0 else (if t[0].Detach? then 1 else 0) + Detaches(t[1..])
  }

  /** Under the discipline each bind is released exactly once: the releases number the
      binds, plus one for a device bound before the trace began. */
  lemma {:induction false} ScopedBalances(t: seq<Event>, live: bool)
    requires ScopedFrom(t, live)
    ensures Detaches(t) == Attaches(t) + (if live then 1 else 0)
    decreases |t|
  {
    if |t| > 0 {
      var e := t[0];
      var live' := if e.Attach? then true else if e.Detach? then false else live;
      ScopedBalances(t[1..], live');
    }
  }

  /** A trace that never binds a device is in order when it only touches the table. */
  lemma {:induction false} TableStepsAreScoped(t: seq<Event>)
    requires forall i | 0 <= i < |t| :: UsesTable(t[i])
    ensures Scoped(t)
    ensures Attaches(t) == 0
    decreases |t|
  {
    if |t| > 0 {
      TableStepsAreScoped(t[1..]);
    }
  }

  /** A bound stretch of device steps closed by a release is in order. */
  lemma {:induction false} DeviceStepsAreScoped(inner: seq<Event>)
    requires forall i | 0 <= i < |inner| :: UsesDevice(inner[i])
    ensures ScopedFrom(inner + [Detach], true)
    ensures Attaches(inner + [Detach]) == 0
    decreases |inner|
  {
    if |inner| > 0 {
      assert (inner + [Detach])[1..] == inner[1..] + [Detach];
      DeviceStepsAreScoped(inner[1..]);
    }
  }

  /** The shape of every command that binds a device: table steps, the bind, device
      steps, the release. */
  lemma {:induction false} BracketIsScoped(pre: seq<Event>, m: Mapping, inner: seq<Event>)
    requires forall i | 0 <= i < |pre| :: UsesTable(pre[i])
    requires forall i | 0 <= i < |inner| :: UsesDevice(inner[i])
    ensures Scoped(pre + [Attach(m)] + inner + [Detach])
    ensures Attaches(pre + [Attach(m)] + inner + [Detach]) == 1
    decreases |pre|
  {
    var t := pre + [Attach(m)] + inner + [Detach];
    if |pre| == 0 {
      assert t[1..] == inner + [Detach];
      DeviceStepsAreScoped(inner);
    } else {
      assert t[1..] == pre[1..] + [Attach(m)] + inner + [Detach];
      BracketIsScoped(pre[1..], m, inner);
    }
  }

  /** Every bind in the trace is released exactly once, and there is at most one bind. */
  predicate Balanced(t: seq<Event>) {
    Scoped(t) && Detaches(t) == Attaches(t) <= 1
  }

  lemma TableStepsAreBalanced(t: seq<Event>)
    requires forall i | 0 <= i < |t| :: UsesTable(t[i])
    ensures Balanced(t) && Attaches(t) == 0
  {
    TableStepsAreScoped(t);
    ScopedBalances(t, false);
  }

  lemma BracketIsBalanced(pre: seq<Event>, m: Mapping, inner: seq<Event>)
    requires forall i | 0 <= i < |pre| :: UsesTable(pre[i])
    requires forall i | 0 <= i < |inner| :: UsesDevice(inner[i])
    ensures Balanced(pre + [Attach(m)] + inner + [Detach])
    ensures Attaches(pre + [Attach(m)] + inner + [Detach]) == 1
  {
    BracketIsScoped(pre, m, inner);
    ScopedBalances(pre + [Attach(m)] + inner + [Detach], false);
  }
}

=== FILE: sectors.dfy ===
/** Sector and partition-index arithmetic: the only numbers the tool computes itself. */
module Sectors {
  import opened Outcomes

  const SectorSize: nat := 512
  const MiB: nat := 1048576
  /** The primary slots of a legacy partition table. */
  const PrimarySlots: set<int> := {1, 2, 3, 4}

  /** `check_partition_index`: accepts exactly the four primary slots and aborts
      with the offending index otherwise. */
  function CheckPartitionIndex(index: int): (r: Result<()>)
    ensures r.Ok? <==> index in PrimarySlots
    ensures r.Err? ==> r.error == InvalidPartitionIndex(index)
  {
    if 1 <= index <= 4 then Ok(()) else Err(InvalidPartitionIndex(index))
  }

  /** The byte window a loop device is bound to: `offset` and `sizelimit` as handed to losetup. */
  datatype Mapping = Mapping(offset: int, sizeLimit: int)

  /** True when byte `b` of the image is visible through the loop device. */
  predicate Covers(m: Mapping, b: int) {
    m.offset <= b < m.offset + m.sizeLimit
  }

  /** The sector holding byte `b` (floor division by the sector size). */
  function SectorOf(b: int): int {
    b / SectorSize
  }

  /** `attach_loopback` arithmetic: a start/end sector pair becomes a byte offset and a
      byte length at 512 bytes per sector. */
  function LoopRange(start: int, end: int): (m: Mapping)
    ensures m.offset % SectorSize == 0 && m.sizeLimit % SectorSize == 0
    ensures SectorOf(m.offset) == start && SectorOf(m.offset + m.sizeLimit) == end
    ensures m.sizeLimit >= 0 <==> end >= start
  {
    Mapping(start * 512, (end - start) * 512)
  }

  /** The mapping shows exactly the sectors `start .. end-1`: the end sector itself
      is not part of the window, so an inclusive partition end loses its last sector. */
  lemma LoopRangeCoversSectors(start: int, end: int, b: int)
    ensures Covers(LoopRange(start, end), b) <==> start <= SectorOf(b) < end
  {
  }

  /** Number of 512-byte sectors `create_image` writes: `image_size * 2**20 / 512`
      sectors, and none when the size is not positive (`range` of a non-positive count). */
  function ImageSectors(sizeMiB: int): (n: nat)
    ensures sizeMiB >= 0 ==> n * SectorSize == sizeMiB * MiB
    ensures sizeMiB <= 0 ==> n == 0
  {
    if sizeMiB <= 0 then 0 else sizeMiB * 2048
  }
}
